=== FILE: README.md ===
# homaker handout rules in Dafny

homaker turns multi-page "worksheet" PDF decks into two-up "handout" PDFs.
It pairs source pages (0,1), (2,3), … and drops a trailing odd page. Each pair
goes onto one A4 page: the first page in the upper slot, the second in the
lower slot. Every composed page gets two grey rules and four text runs: the
course header `Handout | OM week - part`, the counter `[Page k/T]`, the
author line and `[year]`. Week and part come from the file path via a
regular expression, with (1, 1) as the default. The batch driver picks the
files whose lower-cased name ends in `.pdf` and contains `-worksheet`, and
writes each handout next to its input under a renamed file name.

The model restates these rules as functions over `string`, `seq` and exact
`real` arithmetic. Where a function has a precondition, it is the one the
code relies on: digit strings for `int()`, a non-empty pattern for
`str.replace`, existing page indices for `merge_pages`.

- `decimal.dfy` (`Decimal`): `int()` on ASCII digit strings and `str()` on
  naturals, with both round trips.
- `text.dfy` (`Text`): substring tests, ASCII `str.lower`, and `str.replace`
  (every non-overlapping occurrence, scanned left to right).
- `metadata.dfy` (`Metadata`): `re.match(r"(?:.*/)?((\d+)(?:-(\d+))?-Worksheet)", path)`
  and the week/part defaults. The greedy evaluation of the body is proved
  equal to the pattern's language (`BodyAtSound`/`BodyAtComplete`). The
  optional prefix is modelled as trying the positions after each reachable
  `/` from right to left, then position 0.
- `compositor.dfy` (`Compositor`): the slot rectangles of `merge_pages` and
  the pairing loop of `create_output_doc`.
- `decoration.dfy` (`Decoration`): the anchors of `add_frame` and `add_text`.
  This module uses its own 595 × 842 page and 14/14/14/20 margins, which
  differ from the compositor's 595.276 × 841.890 page and 10-point margin.
- `batch.dfy` (`Batch`): selection, renaming and `os.path.join` in
  `process_all_worksheets`.
- `pipeline.dfy` (`Pipeline`): `process_document` and the batch loop.

The following are parameters of the model: the directory walk (a sequence of
(directory, file names) entries), the page count of each document, the year,
and the font's width measure `textLength: string -> real`.

The model keeps these consequences of the code:

- A week or part of `0` is accepted, because `int("0")` is 0. Nothing in the
  code makes week or part positive (`Metadata.LeadingZerosDropped`).
- Decoration is not idempotent: every call draws again.
- `process_document` has no error handling around it, so an exception in one
  document ends the whole batch.
- The slot layout does not leave a middle margin. The upper slot ends where
  the lower slot begins, so the lower slot is 10 points taller than the upper
  one (`Compositor.SlotGeometry`).
- Renaming is not injective. `3-Worksheet.pdf` and `3-worksheet.pdf` in one
  directory both become `3-Handout.pdf`, and the later one in the listing
  overwrites the earlier one (`Batch.CollidingJobs`).

## Model

| member | source | states |
|---|---|---|
| Decimal.Show | homaker/main.py:121 | `str(n)` is a nonempty digit string that starts with `0` exactly when n is 0 |
| Decimal.ValueOfShow | homaker/main.py:164-166 | `int(str(n)) == n` for every natural n |
| Decimal.ShowOfValue | homaker/main.py:164 | `str(int(d)) == d` for every digit string d without a superfluous leading zero |
| Decimal.Value | homaker/main.py:164-166 | `int(s)` on ASCII digit strings; its contract is carried by `Decimal.ValueOfShow`, `Decimal.ShowOfValue` and `Decimal.LeadingZeroDropped` |
| Decimal.ShowInjective | homaker/main.py:125 | distinct numbers are rendered as distinct texts |
| Decimal.LeadingZeroDropped | homaker/main.py:164 | `int("0" + d) == int(d)`: leading zeros carry no weight |
| Text.Lower | homaker/main.py:186 | ASCII `str.lower`, character by character; its contract is carried by `Text.LowerOccurs` and `Batch.SelectedBy` |
| Text.LowerOccurs | homaker/main.py:186 | an occurrence of a pattern is still an occurrence after lower-casing both the name and the pattern |
| Text.ReplaceAll | homaker/main.py:194-196 | `str.replace`: every non-overlapping occurrence, scanned left to right; its contract is carried by `Text.ReplaceAbsent`, `Text.ReplaceShortens`, `Text.ReplaceLeavesNoOccurrence` and `Text.PrefixBeforeReplacement` |
| Text.ReplaceAbsent | homaker/main.py:194-196 | `s.replace(p, r)` returns s unchanged when p does not occur in s |
| Text.ReplaceShortens | homaker/main.py:194-196 | with a shorter replacement the result never grows, and is strictly shorter whenever the pattern occurs |
| Text.ReplaceLeavesNoOccurrence | homaker/main.py:194-196 | when the pattern and the replacement are unentangled, the pattern no longer occurs after the replacement, and no other unentangled string that was absent before appears |
| Metadata.BodyAt | homaker/main.py:162 | the pattern body at one start position with greedy groups; its contract is carried by `Metadata.BodyAtSound` and `Metadata.BodyAtComplete` |
| Metadata.DigitRunEnd | homaker/main.py:162 | a greedy `\d+` ends at the first non-digit: every character before it is a digit and the one at it is not |
| Metadata.BodyAtSound | homaker/main.py:162 | every greedy body match is a word `digits[-digits]-Worksheet` of the pattern, with the groups as week and part |
| Metadata.BodyAtComplete | homaker/main.py:162-167 | every word of the body's language is found by the greedy evaluation, with the same week and part; backtracking cannot change the groups |
| Metadata.SearchDown | homaker/main.py:162 | the start positions are tried from the right; the one returned is a candidate with a body match, and no candidate to its right matches |
| Metadata.MatchSpec | homaker/main.py:162-163 | the path matches with m exactly when some start position (the path start or just after a `/` reachable by `.*`) yields m and no position to its right matches |
| Metadata.Match | homaker/main.py:162-163 | `re.match` of the pattern on the whole path; its contract is carried by `Metadata.MatchSpec`, `Metadata.MatchSound` and `Metadata.LastSlashDecides` |
| Metadata.MatchSound | homaker/main.py:162 | every match has its digits at the start of the path or directly after a `/`, followed by an optional `-digits` and the case-sensitive `-Worksheet` |
| Metadata.MatchHasLiteral | homaker/main.py:162 | a matching path contains `-Worksheet` |
| Metadata.WeekAndPart | homaker/main.py:162-169 | the groups through `int`, part 1 without group 3, (1, 1) without a match; its contract is carried by `Metadata.WorksheetPathParses`, `Metadata.RenderedPathParses` and `Metadata.NoLiteralGivesDefault` |
| Metadata.NoLiteralGivesDefault | homaker/main.py:162-169 | a path without `-Worksheet` gets week 1, part 1 |
| Metadata.LastSlashDecides | homaker/main.py:162 | a start position with a body match and no later `/` decides the match |
| Metadata.NoSlashMatchesAtStart | homaker/main.py:162 | without any `/`, only the start of the path is tried |
| Metadata.WorksheetPathParses | homaker/main.py:162-167 | `dir week[-part]-Worksheet rest` yields `(int(week), int(part))`, or part 1 when the group is absent, when rest holds no `/` |
| Metadata.RenderedPathParses | homaker/main.py:162-169 | a name built from `str(week)` and `str(part)` parses back to exactly (week, part) |
| Metadata.LeadingZerosDropped | homaker/main.py:164-167 | a zero-padded week loses its zeros, and a part of 0 is kept as 0 |
| Metadata.DocumentedNames | homaker/main.py:162-169 | `3-Worksheet.pdf` gives (3, 1), `3-2-Worksheet.pdf` gives (3, 2), `notes.pdf` gives (1, 1) |
| Metadata.ThreeGroupsGiveDefault | homaker/main.py:162-169 | `1-2-3-Worksheet.pdf` has no match and gets (1, 1) |
| Metadata.LastSlashPreferred | homaker/main.py:162 | in `1-Worksheet/2-Worksheet.pdf` the file name after the last `/` decides: (2, 1) |
| Compositor.MergePages | homaker/main.py:37-72 | the first page of the pair goes into the upper slot and the second into the lower slot; its contract is carried by `Compositor.SlotGeometry` |
| Compositor.SlotGeometry | homaker/main.py:43-67 | the page is 595.276 × 841.890; both slots span x from 10 to W−10 (width W−20); the upper slot is y ∈ [10, h+10] with h = (H−30)/2; the lower slot is y ∈ [h+10, H−10], shares the upper slot's bottom edge and is 10 taller; both lie inside the page |
| Compositor.PairsCover | homaker/main.py:77-80 | source page j lands in pair j/2 (upper slot if j is even, lower if odd) unless it is the trailing page of an odd count, which lands in no pair; no other pair or slot holds j |
| Compositor.PairsOrdered | homaker/main.py:77-79 | in every pair, the last one included, the upper page precedes the lower one; each pair ends before every later pair begins |
| Compositor.CreateOutputDoc | homaker/main.py:75-81 | the loop yields floor(N/2) pages; page k is the merge of source pages (2k, 2k+1), both of which exist |
| Decoration.AddFrame | homaker/main.py:84-103 | the two grey rules; their positions are stated by `Decoration.FrameAlignment` |
| Decoration.AddText | homaker/main.py:106-154 | the four runs; their placement is stated by `Decoration.FrameAlignment` and `Decoration.RightRunsStayLeftOfRuleEnd`, their counter text by `Decoration.CounterTextInjective` |
| Decoration.FrameAlignment | homaker/main.py:84-147 | right-aligned runs end at x = 570, where both rules end, whatever their width; left runs start at x = 28, where the rules start; the header baseline 22 is above the top rule 25.2; the bottom rule 810 is above the footer baseline 822 |
| Decoration.RightRunsStayLeftOfRuleEnd | homaker/main.py:126-147 | with a nonnegative width measure, the right-aligned runs start at or left of x = 570 |
| Decoration.CounterTextInjective | homaker/main.py:125 | `[Page a/T]` and `[Page b/T]` are equal only when a = b |
| Batch.IsWorksheetPdf | homaker/main.py:185-187 | the file filter; its contract is carried by `Batch.MatchedIsSelected`, `Batch.SelectedButDefault` and `Batch.SelectedNameMayMapToItself` |
| Batch.HandoutName | homaker/main.py:194-196 | the two chained replacements; its contract is carried by `Batch.HandoutNameClean`, `Batch.HandoutNameFixedIff` and `Batch.SpellingsCollide` |
| Batch.Join | homaker/main.py:190-193 | POSIX `os.path.join` for a relative or absolute name; its contract is carried by `Batch.SameDirectory` and `Batch.CollidingJobs` |
| Batch.HandoutNameClean | homaker/main.py:194-196 | the output name contains neither `Worksheet` nor `worksheet` |
| Batch.HandoutNameFixedIff | homaker/main.py:194-196 | the output name equals the input name exactly when the input holds neither spelling |
| Batch.SameDirectory | homaker/main.py:190-197 | input and output paths share the same directory prefix; only the file name is replaced |
| Batch.MatchedIsSelected | homaker/main.py:185-187 | a `.pdf` name that the metadata pattern matches is selected by the filter |
| Batch.SelectedButDefault | homaker/main.py:162-186 | `3-worksheet.pdf` is selected but gets the default (1, 1), because the filter ignores case and the pattern does not |
| Batch.SelectedNameMayMapToItself | homaker/main.py:186-196 | `3-WORKSHEET.pdf` is selected and its handout name is the input name itself |
| Batch.SpellingsCollide | homaker/main.py:194-196 | `3-Worksheet.pdf` and `3-worksheet.pdf` are both renamed to `3-Handout.pdf` |
| Batch.DirJobs | homaker/main.py:185-197 | the jobs are those of the selected files, each once and in listing order. An increasing sequence of listing positions holds exactly the selected files, and job k is `(join(root, f), join(root, renamed f))` for the file f at the k-th of these positions |
| Batch.DirJobsComplete | homaker/main.py:185-189 | every selected file of a directory gets its job |
| Batch.CollidingJobs | homaker/main.py:185-198 | a directory listing both spellings yields two jobs in listing order, with different inputs and the same output, so the later handout replaces the earlier one |
| Batch.WalkJobs | homaker/main.py:183-197 | the jobs are those of the selected files of every walked directory, each once, directory after directory and in listing order within one. A strictly increasing sequence of (directory, position) pairs holds exactly the selected files, and each job is that file's input and output path |
| Batch.WalkJobsComplete | homaker/main.py:183-189 | every selected file of every walked directory gets its job |
| Pipeline.ProcessDocument | homaker/main.py:157-176 | floor(N/2) pages. Page k is `merge_pages` of source pages (2k, 2k+1) and carries the frame and the four runs for position k. The week and part come from the input path, the counter is `[Page k+1/T]` with T the output page count, and no two pages share a counter |
| Pipeline.HandoutCounters | homaker/main.py:171-174 | in a handout of T pages, page k carries the counter `[Page k+1/T]`, and no two pages carry the same counter |
| Pipeline.ProcessAllWorksheets | homaker/main.py:181-198 | one entry per job of the walk, in walk order. Entry i pairs job i with the handout that `process_document` promises for its input: floor(N/2) merged pages, each framed and captioned with the week and part read from that input path and its own counter |

## Left out

- PDF rendering through the library is not modelled: `show_pdf_page` with
  `keep_proportion=True`, `insert_pdf`, `TextWriter`, `draw_line` and `save`.
  A composed page records only which source page goes into which rectangle.
  Stroke width, colour and font size are not represented.
- `load_custom_font` (homaker/main.py:15-34) is left out because it reads the
  filesystem and the OS name. The font's `text_length` is the parameter
  `textLength`.
- `os.walk`, `fitz.open` and `print` are I/O. The walk and the page counts are
  parameters.
- Pipeline.ProcessAllWorksheets: the model assumes every open and every save
  succeeds. PyMuPDF's `save` refuses a document without pages (PyMuPDF
  behaviour, outside main.py). So in the source an input with fewer than two
  pages would end the batch at homaker/main.py:176. The model instead gives
  that input an empty handout and goes on with the remaining jobs.
- Pipeline.ProcessDocument: for fewer than two source pages the model returns
  an empty handout. The save of that empty document is not modelled, for the
  same reason.
- Pipeline.ProcessAllWorksheets: page counts and the year are read once,
  before the batch. `pageCountOf` is a fixed function of the input path and
  `year` is one number. The source writes each handout into the directory
  it walks (homaker/main.py:176, 192-198), and that handout can be the input
  of a later job. An example is `3-Worksheet-WORKSHEET.pdf` followed by
  `3-Handout-WORKSHEET.pdf`: the first job overwrites the second file, and
  the renamed file is still selected. A handout overwriting a later job's
  input is not modelled. Neither is a year that changes during the batch:
  `date.today()` is read on every `add_text` call (homaker/main.py:118).
- Week and part are not promised to be positive, because the code does not
  make them so: a `0` group reads as 0.
- Batch.Join: paths use the POSIX separator `/`; the model is
  `posixpath.join`. On Windows `os.path.join` inserts `\`, and the pattern
  at homaker/main.py:162 splits only on `/`. Every walked path starts with
  `.`, so on Windows every handout would get the default (1, 1).
- `date.today()` is the parameter `year`, rendered with `str()`. `%Y` zero-pads
  years below 1000, which is not modelled.
- IEEE floating point is not modelled: the geometry uses exact reals.
- `\d`, `.` and `str.lower` are modelled on ASCII only; Python also accepts
  Unicode digits and letters.
- Decoration idempotence and per-file error isolation are not modelled. The
  code draws on every call and has no exception handling around
  `process_document`.
- Releasing the input document (`input_doc.close()`) is resource handling and
  is not modelled.

=== FILE: batch.dfy ===
/** The batch driver's naming rules: which files of a directory listing are
    converted, and where each handout is written. The directory walk itself
    is a parameter: a sequence of (directory, file names) entries. */
module Batch {
  import opened Text
  import Metadata
  import Listing

  /** Selected: the lower-cased name ends in `.pdf` and contains `-worksheet`. */
  predicate IsWorksheetPdf(name: string) {
    EndsWith(Lower(name), ".pdf") && Contains(Lower(name), "-worksheet")
  }

  /** Every `Worksheet`, then every `worksheet`, becomes `Handout`. */
  function HandoutName(name: string): string {
    ReplaceAll(ReplaceAll(name, "Worksheet", "Handout"), "worksheet", "Handout")
  }

  /** `os.path.join(root, name)`. */
  function Join(root: string, name: string): string {
    if StartsWith(name, "/") then name
    else if root == [] || EndsWith(root, "/") then root + name
    else root + "/" + name
  }

  /** What `Join` puts in front of a relative name. */
  function DirPrefix(root: string): string {
    if root == [] || EndsWith(root, "/") then root else root + "/"
  }

  datatype Job = Job(input: string, output: string)

  function JobFor(root: string, name: string): Job {
    Job(Join(root, name), Join(root, HandoutName(name)))
  }

  lemma SpellingsUnentangled()
    ensures Unentangled("Worksheet", "Handout") && Unentangled("worksheet", "Handout")
    ensures Avoids("/", "Handout"[0])
  {
  }

  /** The output name holds neither spelling any more. */
  lemma HandoutNameClean(name: string)
    ensures !Contains(HandoutName(name), "Worksheet") && !Contains(HandoutName(name), "worksheet")
  {
    SpellingsUnentangled();
    var once := ReplaceAll(name, "Worksheet", "Handout");
    ReplaceLeavesNoOccurrence(name, "Worksheet", "Handout", "Worksheet");
    ReplaceLeavesNoOccurrence(once, "worksheet", "Handout", "worksheet");
    ReplaceLeavesNoOccurrence(once, "worksheet", "Handout", "Worksheet");
  }

  /** A name is left as it is exactly when it holds neither spelling, as for
      `3-WORKSHEET.pdf`. */
  lemma HandoutNameFixedIff(name: string)
    ensures HandoutName(name) == name <==> !Contains(name, "Worksheet") && !Contains(name, "worksheet")
  {
    var once := ReplaceAll(name, "Worksheet", "Handout");
    ReplaceShortens(name, "Worksheet", "Handout");
    ReplaceShortens(once, "worksheet", "Handout");
    if !Contains(name, "Worksheet") {
      ReplaceAbsent(name, "Worksheet", "Handout");
      if !Contains(name, "worksheet") {
        ReplaceAbsent(name, "worksheet", "Handout");
      }
    }
  }

  /** The output goes to the same directory as the input; only the file name
      changes. */
  lemma SameDirectory(root: string, name: string)
    requires !StartsWith(name, "/")
    ensures JobFor(root, name).input == DirPrefix(root) + name
    ensures JobFor(root, name).output == DirPrefix(root) + HandoutName(name)
  {
    SpellingsUnentangled();
    var once := ReplaceAll(name, "Worksheet", "Handout");
    PrefixBeforeReplacement(name, "Worksheet", "Handout", "/");
    PrefixBeforeReplacement(once, "worksheet", "Handout", "/");
  }

  /** A name the metadata pattern recognises, ending in `.pdf`, is selected. */
  lemma MatchedIsSelected(name: string)
    requires EndsWith(name, ".pdf") && Metadata.Match(name).Some?
    ensures IsWorksheetPdf(name)
  {
    Metadata.MatchHasLiteral(name);
    var i: nat :| i <= |name| && OccursAt(name, Metadata.Literal, i);
    SelectionSpellings();
    SelectedBy(name, Metadata.Literal, i);
  }

  lemma SelectionSpellings()
    ensures Lower(Metadata.Literal) == "-worksheet" && Lower(".pdf") == ".pdf"
  {
  }

  /** A `.pdf` name holding some spelling of `-worksheet` is selected. */
  lemma SelectedBy(name: string, word: string, i: nat)
    requires EndsWith(name, ".pdf") && OccursAt(name, word, i) && Lower(word) == "-worksheet"
    ensures IsWorksheetPdf(name)
  {
    LowerOccurs(name, word, i);
    LowerOccurs(name, ".pdf", |name| - 4);
    SelectionSpellings();
  }

  lemma OtherSpellings()
    ensures Lower("-worksheet") == "-worksheet" && Lower("-WORKSHEET") == "-worksheet"
  {
  }

  /** The converse fails: the selection ignores case, the pattern does not,
      so a selected lower-case name gets the default week and part. */
  lemma SelectedButDefault()
    ensures IsWorksheetPdf("3-worksheet.pdf")
    ensures Metadata.WeekAndPart("3-worksheet.pdf") == Metadata.Default
  {
    var name := "3-worksheet.pdf";
    assert OccursAt(name, "-worksheet", 1) && EndsWith(name, ".pdf");
    OtherSpellings();
    SelectedBy(name, "-worksheet", 1);
    MissingLetter(name, Metadata.Literal, 1);
    Metadata.NoLiteralGivesDefault(name);
  }

  /** A pattern cannot occur where one of its letters is missing. */
  lemma MissingLetter(s: string, pat: string, k: nat)
    requires k < |pat| && pat[k] !in s
    ensures !Contains(s, pat)
  {
    forall i: nat
      ensures !OccursAt(s, pat, i)
    {
      if i + |pat| <= |s| {
        assert s[i..i + |pat|][k] == s[i + k];
        assert s[i + k] in s;
      }
    }
  }

  lemma UpperCaseNameSelected()
    ensures IsWorksheetPdf("3-WORKSHEET.pdf")
  {
    var name := "3-WORKSHEET.pdf";
    assert OccursAt(name, "-WORKSHEET", 1) && EndsWith(name, ".pdf");
    OtherSpellings();
    SelectedBy(name, "-WORKSHEET", 1);
  }

  /** A selected name may be written over itself: its handout name is the
      input name. */
  lemma SelectedNameMayMapToItself()
    ensures IsWorksheetPdf("3-WORKSHEET.pdf")
    ensures HandoutName("3-WORKSHEET.pdf") == "3-WORKSHEET.pdf"
  {
    UpperCaseNameSelected();
    MissingLetter("3-WORKSHEET.pdf", "Worksheet", 1);
    MissingLetter("3-WORKSHEET.pdf", "worksheet", 1);
    HandoutNameFixedIff("3-WORKSHEET.pdf");
  }

  /** Renaming is not injective: both spellings give the same handout name. */
  lemma SpellingsCollide()
    ensures HandoutName("3-Worksheet.pdf") == "3-Handout.pdf"
    ensures HandoutName("3-worksheet.pdf") == "3-Handout.pdf"
  {
    CapitalSpellingRenamed();
    LowerSpellingRenamed();
  }

  lemma CapitalSpellingRenamed()
    ensures HandoutName("3-Worksheet.pdf") == "3-Handout.pdf"
  {
    CollisionShapes();
    MissingLetter(".pdf", "Worksheet", 0);
    MissingLetter("3-Handout.pdf", "worksheet", 0);
    RenamedIn("3-Worksheet.pdf", "Worksheet", "3-Handout.pdf");
  }

  lemma LowerSpellingRenamed()
    ensures HandoutName("3-worksheet.pdf") == "3-Handout.pdf"
  {
    CollisionShapes();
    MissingLetter(".pdf", "worksheet", 0);
    MissingLetter("3-worksheet.pdf", "Worksheet", 0);
    RenamedIn("3-worksheet.pdf", "worksheet", "3-Handout.pdf");
  }

  /** `3-<spelling>.pdf`, holding only that spelling, becomes `3-Handout.pdf`. */
  lemma RenamedIn(name: string, spelling: string, out: string)
    requires spelling == "Worksheet" || spelling == "worksheet"
    requires name == ['3'] + (['-'] + (spelling + ".pdf")) && !Contains(".pdf", spelling)
    requires out == ['3'] + (['-'] + ("Handout" + ".pdf"))
    requires spelling == "Worksheet" ==> !Contains(out, "worksheet")
    requires spelling == "worksheet" ==> !Contains(name, "Worksheet")
    ensures HandoutName(name) == out
  {
    RenameBetween('3', '-', spelling, ".pdf", "Handout");
    if spelling == "Worksheet" {
      ReplaceAbsent(out, "worksheet", "Handout");
    } else {
      ReplaceAbsent(name, "Worksheet", "Handout");
    }
  }

  lemma CollisionShapes()
    ensures "3-Worksheet.pdf" == ['3'] + (['-'] + ("Worksheet" + ".pdf"))
    ensures "3-worksheet.pdf" == ['3'] + (['-'] + ("worksheet" + ".pdf"))
    ensures "3-Handout.pdf" == ['3'] + (['-'] + ("Handout" + ".pdf"))
  {
  }

  /** Two characters that cannot start the pattern, one occurrence, and a
      tail without it: exactly that occurrence is replaced. */
  lemma RenameBetween(a: char, b: char, pat: string, tail: string, rep: string)
    requires pat != [] && a != pat[0] && b != pat[0] && !Contains(tail, pat)
    ensures ReplaceAll([a] + ([b] + (pat + tail)), pat, rep) == [a] + ([b] + (rep + tail))
  {
    ReplaceAbsent(tail, pat, rep);
    ReplaceStep(pat, tail, rep);
    CopyStep(b, pat + tail, pat, rep);
    CopyStep(a, [b] + (pat + tail), pat, rep);
  }

  /** The job of each file name of a directory. */
  function JobsIn(root: string): string -> Job {
    name => JobFor(root, name)
  }

  /** The jobs for one directory: those of its selected files, each once, in
      listing order. */
  function DirJobs(root: string, files: seq<string>): (jobs: seq<Job>)
    ensures Listing.FilterMapped(files, jobs, IsWorksheetPdf, JobsIn(root))
  {
    if files == [] then
      Listing.EmptyFilterMapped(IsWorksheetPdf, JobsIn(root));
      []
    else
      var rest := DirJobs(root, files[1..]);
      Listing.ConsStep(files, rest, IsWorksheetPdf, JobsIn(root));
      if IsWorksheetPdf(files[0]) then [JobFor(root, files[0])] + rest else rest
  }

  /** No selected file is skipped. */
  lemma {:induction false} DirJobsComplete(root: string, files: seq<string>, f: string)
    requires f in files && IsWorksheetPdf(f)
    ensures JobFor(root, f) in DirJobs(root, files)
  {
    if files[0] != f {
      DirJobsComplete(root, files[1..], f);
    }
  }

  /** Both spellings in one directory give two jobs with the same output, the
      later one in the listing last, so its handout is the one that stays. */
  lemma CollidingJobs()
    ensures var jobs := DirJobs(".", ["3-Worksheet.pdf", "3-worksheet.pdf"]);
      && jobs == [JobFor(".", "3-Worksheet.pdf"), JobFor(".", "3-worksheet.pdf")]
      && jobs[0].input != jobs[1].input && jobs[0].output == jobs[1].output
  {
    SpellingsSelected();
    SpellingsCollide();
    Listing.BothKept("3-Worksheet.pdf", "3-worksheet.pdf", DirJobs(".", ["3-Worksheet.pdf", "3-worksheet.pdf"]),
                     IsWorksheetPdf, JobsIn("."));
    CollisionNamesRelative();
    JoinKeepsName(".", "3-Worksheet.pdf", "3-worksheet.pdf");
  }

  lemma CollisionNamesRelative()
    ensures !StartsWith("3-Worksheet.pdf", "/") && !StartsWith("3-worksheet.pdf", "/")
    ensures "3-Worksheet.pdf" != "3-worksheet.pdf"
  {
    assert "3-Worksheet.pdf"[2] != "3-worksheet.pdf"[2];
    assert "3-Worksheet.pdf"[0..1] != "/" by {
      assert "3-Worksheet.pdf"[0..1][0] == '3';
    }
    assert "3-worksheet.pdf"[0..1] != "/" by {
      assert "3-worksheet.pdf"[0..1][0] == '3';
    }
  }

  lemma SpellingsSelected()
    ensures IsWorksheetPdf("3-Worksheet.pdf") && IsWorksheetPdf("3-worksheet.pdf")
  {
    assert OccursAt("3-Worksheet.pdf", Metadata.Literal, 1) && EndsWith("3-Worksheet.pdf", ".pdf");
    assert OccursAt("3-worksheet.pdf", "-worksheet", 1) && EndsWith("3-worksheet.pdf", ".pdf");
    SelectionSpellings();
    OtherSpellings();
    SelectedBy("3-Worksheet.pdf", Metadata.Literal, 1);
    SelectedBy("3-worksheet.pdf", "-worksheet", 1);
  }

  /** Relative names joined to the same root stay apart. */
  lemma JoinKeepsName(root: string, a: string, b: string)
    requires !StartsWith(a, "/") && !StartsWith(b, "/") && a != b
    ensures Join(root, a) != Join(root, b)
  {
    assert Join(root, a) == DirPrefix(root) + a;
    assert Join(root, b) == DirPrefix(root) + b;
    assert (DirPrefix(root) + a)[|DirPrefix(root)|..] == a;
    assert (DirPrefix(root) + b)[|DirPrefix(root)|..] == b;
  }

  /** The jobs of a whole walk: those of the selected files of every
      directory, each once, directory after directory and in listing order
      within a directory. */
  function WalkJobs(walk: seq<(string, seq<string>)>): (jobs: seq<Job>)
    ensures Listing.GroupedFilterMapped(walk, jobs, IsWorksheetPdf, JobsIn)
  {
    if walk == [] then
      Listing.EmptyGroupedFilterMapped(IsWorksheetPdf, JobsIn);
      []
    else
      var head := DirJobs(walk[0].0, walk[0].1);
      var tail := WalkJobs(walk[1..]);
      Listing.ConcatStep(walk, head, tail, IsWorksheetPdf, JobsIn);
      head + tail
  }

  /** No selected file of any directory of the walk is skipped. */
  lemma {:induction false} WalkJobsComplete(walk: seq<(string, seq<string>)>, d: nat, f: string)
    requires d < |walk| && f in walk[d].1 && IsWorksheetPdf(f)
    ensures JobFor(walk[d].0, f) in WalkJobs(walk)
  {
    if d == 0 {
      DirJobsComplete(walk[0].0, walk[0].1, f);
    } else {
      WalkJobsComplete(walk[1..], d - 1, f);
    }
  }
}

=== FILE: compositor.dfy ===
/** Page composition: consecutive source pages are paired and each pair is
    placed into the two stacked slots of one new A4 page. Rendering itself
    (the proportional fit inside a slot) happens in the PDF library; a
    composed page records which source page goes into which rectangle. */
module Compositor {

  datatype Rect = Rect(x0: real, y0: real, x1: real, y1: real) {
    function Width(): real { x1 - x0 }
    function Height(): real { y1 - y0 }
    predicate Within(outer: Rect) {
      outer.x0 <= x0 && x1 <= outer.x1 && outer.y0 <= y0 && y1 <= outer.y1
    }
  }

  /** A4 in points, as the compositor spells it out. */
  const PageWidth: real := 595.276
  const PageHeight: real := 841.890
  const Margin: real := 10.0

  /** Two slot heights fill the page height minus three margins. */
  const SlideHeight: real := (PageHeight - 3.0 * Margin) / 2.0
  const SlideWidth: real := PageWidth - 2.0 * Margin

  function PageRect(): Rect {
    Rect(0.0, 0.0, PageWidth, PageHeight)
  }

  function UpperSlot(): Rect {
    Rect(Margin, Margin, PageWidth - Margin, SlideHeight + Margin)
  }

  function LowerSlot(): Rect {
    Rect(Margin, SlideHeight + Margin, PageWidth - Margin, PageHeight - Margin)
  }

  /** A source page shown inside a rectangle of the output page. */
  datatype Placement = Placement(rect: Rect, source: nat)

  /** One output page: its size and its two placements. */
  datatype Sheet = Sheet(width: real, height: real, upper: Placement, lower: Placement)

  datatype PagePair = PagePair(first: nat, second: nat)

  /** Places the first page of the pair in the upper slot and the second in
      the lower one; both pages must exist in a document of `count` pages. */
  function MergePages(count: nat, pair: PagePair): Sheet
    requires pair.first < count && pair.second < count
  {
    Sheet(PageWidth, PageHeight, Placement(UpperSlot(), pair.first), Placement(LowerSlot(), pair.second))
  }

  /** Slot geometry: both slots span the page width minus the side margins,
      the upper one is one slide height tall, the lower one starts where the
      upper one ends and runs to the bottom margin, which makes it exactly one
      margin taller. Both lie inside the page and their interiors are disjoint. */
  lemma SlotGeometry(count: nat, pair: PagePair)
    requires pair.first < count && pair.second < count
    ensures var sheet := MergePages(count, pair);
      && sheet.width == 595.276 && sheet.height == 841.890
      && sheet.upper.rect.x0 == sheet.lower.rect.x0 == 10.0
      && sheet.upper.rect.x1 == sheet.lower.rect.x1 == sheet.width - 10.0
      && sheet.upper.rect.Width() == sheet.lower.rect.Width() == SlideWidth
      && sheet.upper.rect.y0 == 10.0
      && sheet.upper.rect.Height() == SlideHeight
      && sheet.upper.rect.y1 == sheet.lower.rect.y0
      && sheet.lower.rect.y1 == sheet.height - 10.0
      && sheet.lower.rect.Height() == sheet.upper.rect.Height() + 10.0
      && sheet.upper.rect.Within(PageRect()) && sheet.lower.rect.Within(PageRect())
      && sheet.upper.rect.Height() > 0.0 && sheet.upper.rect.Width() > 0.0
  {
  }

  /** Reference for the pairing loop: pair k holds source pages 2k and 2k+1. */
  function Pairs(count: nat): seq<PagePair> {
    seq(count / 2, k requires 0 <= k => PagePair(2 * k, 2 * k + 1))
  }

  /** Every source page except a trailing odd one lands in exactly one slot:
      page j is in pair j / 2, upper slot when j is even, lower when odd. */
  lemma PairsCover(count: nat, j: nat)
    requires j < count
    ensures j < count - count % 2 ==>
      var k := j / 2; k < |Pairs(count)| && (if j % 2 == 0 then Pairs(count)[k].first == j else Pairs(count)[k].second == j)
    ensures j == count - 1 && count % 2 == 1 ==>
      forall k :: 0 <= k < |Pairs(count)| ==> Pairs(count)[k].first != j && Pairs(count)[k].second != j
    ensures forall k :: 0 <= k < |Pairs(count)| ==>
      && (Pairs(count)[k].first == j <==> k == j / 2 && j % 2 == 0)
      && (Pairs(count)[k].second == j <==> k == j / 2 && j % 2 == 1)
  {
  }

  /** Pairs keep source order: within a pair, and from one pair to the next. */
  lemma PairsOrdered(count: nat, k: nat)
    requires k < count / 2
    ensures Pairs(count)[k].first < Pairs(count)[k].second
    ensures forall l :: k < l < count / 2 ==> Pairs(count)[k].second < Pairs(count)[l].first
  {
  }

  /** The pairing loop: indices 0, 2, 4, ... and a pair only while i + 1 is
      still a page; each pair becomes one output page, in order. */
  method CreateOutputDoc(count: nat) returns (sheets: seq<Sheet>)
    ensures |sheets| == |Pairs(count)| == count / 2
    ensures forall k :: 0 <= k < |sheets| ==>
      Pairs(count)[k].second < count && sheets[k] == MergePages(count, Pairs(count)[k])
  {
    sheets := [];
    var i := 0;
    while i < count
      invariant i % 2 == 0 && i <= count + 1
      invariant |sheets| == (if i <= count then i else count) / 2
      invariant forall k :: 0 <= k < |sheets| ==>
        2 * k + 1 < count && sheets[k] == MergePages(count, PagePair(2 * k, 2 * k + 1))
    {
      if i + 1 < count {
        sheets := sheets + [MergePages(count, PagePair(i, i + 1))];
      }
      i := i + 2;
    }
  }
}

=== FILE: decimal.dfy ===
/** Decimal notation for naturals, restricted to ASCII digits: the `int(...)`
    conversion applied to a matched digit group, and the `str(...)` rendering
    used when a number is formatted into an f-string. */
module Decimal {

  predicate IsDigit(c: char) {
    '0' <= c <= '9'
  }

  predicate IsDigits(s: string) {
    forall i :: 0 <= i < |s| ==> IsDigit(s[i])
  }

  function DigitValue(c: char): (d: nat)
    requires IsDigit(c)
    ensures d < 10
  {
    c as int - '0' as int
  }

  function DigitChar(d: nat): (c: char)
    requires d < 10
    ensures IsDigit(c) && DigitValue(c) == d
  {
    ('0' as int + d) as char
  }

  /** `int(s)` for a string of ASCII digits: leading zeros carry no weight. */
  function Value(s: string): nat
    requires IsDigits(s)
  {
    if s == [] then 0 else 10 * Value(s[..|s| - 1]) + DigitValue(s[|s| - 1])
  }

  /** `str(n)`: the canonical digits of n, with no leading zero unless n is 0. */
  function Show(n: nat): (s: string)
    ensures s != [] && IsDigits(s)
    ensures s[0] == '0' <==> n == 0
  {
    if n < 10 then [DigitChar(n)] else Show(n / 10) + [DigitChar(n % 10)]
  }

  /** Reading back a rendered number gives the number. */
  lemma {:induction false} ValueOfShow(n: nat)
    ensures Value(Show(n)) == n
  {
    if n >= 10 {
      var s := Show(n);
      assert s[..|s| - 1] == Show(n / 10);
      ValueOfShow(n / 10);
    }
  }

  /** Rendering is injective, so distinct numbers never print alike. */
  lemma ShowInjective(a: nat, b: nat)
    requires Show(a) == Show(b)
    ensures a == b
  {
    ValueOfShow(a);
    ValueOfShow(b);
  }

  lemma {:induction false} ValuePositive(s: string)
    requires IsDigits(s) && s != [] && s[0] != '0'
    ensures Value(s) > 0
  {
    if |s| > 1 {
      ValuePositive(s[..|s| - 1]);
    }
  }

  /** A digit string without a superfluous leading zero is exactly the rendering of its value. */
  lemma {:induction false} ShowOfValue(s: string)
    requires IsDigits(s) && s != []
    requires s[0] == '0' ==> |s| == 1
    ensures Show(Value(s)) == s
  {
    if |s| > 1 {
      var init := s[..|s| - 1];
      var last := s[|s| - 1];
      ShowOfValue(init);
      ValuePositive(init);
      assert Value(s) / 10 == Value(init);
      assert Value(s) % 10 == DigitValue(last);
      assert DigitChar(DigitValue(last)) == last;
      assert s == init + [last];
    } else {
      assert DigitChar(DigitValue(s[0])) == s[0];
    }
  }

  /** `int("0" + s) == int(s)`: a leading zero is dropped. */
  lemma {:induction false} LeadingZeroDropped(s: string)
    requires IsDigits(s)
    ensures IsDigits("0" + s) && Value("0" + s) == Value(s)
  {
    if s != [] {
      var init := s[..|s| - 1];
      LeadingZeroDropped(init);
      assert ("0" + s)[..|s|] == "0" + init;
    }
  }
}

=== FILE: decoration.dfy ===
/** The header/footer overlay drawn on every output page: two grey rules and
    four text runs. Coordinates have the origin at the top left, y grows
    downward, and text origins are baselines. The overlay uses its own page
    size and margins (595 x 842, margins 14/14/14/20), which differ from the
    compositor's 595.276 x 841.890 and 10. */
module Decoration {
  import opened Decimal
  import Metadata

  const A4Width: real := 595.0
  const A4Height: real := 842.0
  const LeftMargin: real := 14.0
  const TopMargin: real := 14.0
  const RightMargin: real := 14.0
  const BottomMargin: real := 20.0

  datatype Point = Point(x: real, y: real)

  /** A horizontal rule, 0.5 pt wide, grey 0.6. */
  datatype Rule = Rule(start: Point, end: Point)

  datatype TextRun = TextRun(origin: Point, text: string)

  datatype Frame = Frame(top: Rule, bottom: Rule)

  datatype Caption = Caption(topLeft: TextRun, topRight: TextRun, bottomLeft: TextRun, bottomRight: TextRun)

  /** The two horizontal rules of `add_frame`. */
  function AddFrame(): Frame {
    var left := LeftMargin + 14.0;
    var right := A4Width - RightMargin - 11.0;
    var topY := 1.8 * TopMargin;
    var bottomY := A4Height - 1.6 * BottomMargin;
    Frame(Rule(Point(left, topY), Point(right, topY)), Rule(Point(left, bottomY), Point(right, bottomY)))
  }

  function HeaderText(meta: Metadata.Meta): string {
    "Handout | OM " + Show(meta.week) + " - " + Show(meta.part)
  }

  /** `[Page k/T]`. */
  function CounterText(ordinal: nat, total: nat): string {
    "[Page " + Show(ordinal) + "/" + Show(total) + "]"
  }

  const FooterText: string := "Frank Huettner | SKK GSB"

  function YearText(year: nat): string {
    "[" + Show(year) + "]"
  }

  /** A run placed so that it ends at the right inset, measured with the
      same font and size it is drawn with. */
  function RightAligned(text: string, y: real, textLength: string -> real): TextRun {
    TextRun(Point(A4Width - RightMargin - textLength(text) - 11.0, y), text)
  }

  /** The four runs of `add_text` for the page at 0-based position `index`
      of a document of `total` pages. `textLength` is the font's width
      measure at the drawing size. */
  function AddText(index: nat, total: nat, meta: Metadata.Meta, year: nat, textLength: string -> real): Caption {
    Caption(
      TextRun(Point(LeftMargin + 14.0, 22.0), HeaderText(meta)),
      RightAligned(CounterText(index + 1, total), 22.0, textLength),
      TextRun(Point(LeftMargin + 14.0, A4Height - BottomMargin), FooterText),
      RightAligned(YearText(year), A4Height - BottomMargin, textLength))
  }

  /** The right-aligned runs end exactly where both rules end (x = 570),
      whatever their measured width; the left runs start where the rules
      start (x = 28); the header baseline (22) lies above the top rule (25.2)
      and the bottom rule (810) above the footer baseline (822). */
  lemma FrameAlignment(index: nat, total: nat, meta: Metadata.Meta, year: nat, textLength: string -> real)
    ensures var f := AddFrame();
      var c := AddText(index, total, meta, year, textLength);
      && c.topRight.origin.x + textLength(c.topRight.text) == f.top.end.x == f.bottom.end.x == 570.0
      && c.bottomRight.origin.x + textLength(c.bottomRight.text) == f.top.end.x
      && c.topLeft.origin.x == c.bottomLeft.origin.x == f.top.start.x == f.bottom.start.x == 28.0
      && c.topLeft.origin.y == c.topRight.origin.y == 22.0 < f.top.start.y == f.top.end.y == 25.2
      && f.bottom.start.y == f.bottom.end.y == 810.0 < c.bottomLeft.origin.y == c.bottomRight.origin.y == 822.0
  {
  }

  /** A nonnegative width never pushes a right-aligned run past the rules. */
  lemma RightRunsStayLeftOfRuleEnd(index: nat, total: nat, meta: Metadata.Meta, year: nat, textLength: string -> real)
    requires forall t :: textLength(t) >= 0.0
    ensures var c := AddText(index, total, meta, year, textLength);
      c.topRight.origin.x <= 570.0 && c.bottomRight.origin.x <= 570.0
  {
  }

  /** In a counter text the first `/` follows the ordinal's digits. */
  lemma CounterSlash(ordinal: nat, total: nat)
    ensures var s := CounterText(ordinal, total);
      && 6 + |Show(ordinal)| < |s| && s[6 + |Show(ordinal)|] == '/'
      && (forall k :: 6 <= k < 6 + |Show(ordinal)| ==> s[k] == Show(ordinal)[k - 6] != '/')
  {
    assert !IsDigit('/');
  }

  /** The counter text names its page: different ordinals give different texts. */
  lemma CounterTextInjective(a: nat, b: nat, total: nat)
    requires CounterText(a, total) == CounterText(b, total)
    ensures a == b
  {
    var s := CounterText(a, total);
    CounterSlash(a, total);
    CounterSlash(b, total);
    assert |Show(a)| == |Show(b)|;
    assert Show(a) == s[6..6 + |Show(a)|] == Show(b);
    ShowInjective(a, b);
  }
}

=== FILE: listing.dfy ===
/** Filtering and mapping a listing while keeping its order: the shape of a
    list comprehension `[f(x) for x in xs if keep(x)]`, and of the same
    comprehension run over a sequence of groups one after the other. */
module Listing {

  /** `ys[k]` is `f` of the selected element of `xs` at position `idx[k]`. */
  ghost predicate Mapped<T, U>(xs: seq<T>, ys: seq<U>, keep: T -> bool, f: T -> U, idx: seq<nat>) {
    && |idx| == |ys|
    && forall k :: 0 <= k < |idx| ==> idx[k] < |xs| && keep(xs[idx[k]]) && ys[k] == f(xs[idx[k]])
  }

  predicate Increasing(idx: seq<nat>) {
    forall k, l :: 0 <= k < l < |idx| ==> idx[k] < idx[l]
  }

  /** Every selected position of `xs` is listed in `idx`. */
  ghost predicate Covers<T>(xs: seq<T>, keep: T -> bool, idx: seq<nat>) {
    forall i :: 0 <= i < |xs| && keep(xs[i]) ==> i in idx
  }

  /** `idx` holds, in increasing order, exactly the positions of `xs` that
      `keep` selects, and `ys[k]` is `f` of the element at `idx[k]`. */
  ghost predicate Picks<T, U>(xs: seq<T>, ys: seq<U>, keep: T -> bool, f: T -> U, idx: seq<nat>) {
    Mapped(xs, ys, keep, f, idx) && Increasing(idx) && Covers(xs, keep, idx)
  }

  /** `ys` is `f` of the selected elements of `xs`, each once, in order. */
  ghost predicate FilterMapped<T, U>(xs: seq<T>, ys: seq<U>, keep: T -> bool, f: T -> U) {
    exists idx: seq<nat> :: Picks(xs, ys, keep, f, idx)
  }

  function Shift(idx: seq<nat>): seq<nat> {
    seq(|idx|, k requires 0 <= k < |idx| => idx[k] + 1)
  }

  lemma EmptyFilterMapped<T, U>(keep: T -> bool, f: T -> U)
    ensures FilterMapped([], [], keep, f)
  {
    assert Picks([], [], keep, f, []);
  }

  lemma ShiftMapped<T, U>(xs: seq<T>, ys: seq<U>, keep: T -> bool, f: T -> U, idx: seq<nat>)
    requires xs != [] && Mapped(xs[1..], ys, keep, f, idx)
    ensures Mapped(xs, ys, keep, f, Shift(idx))
    ensures keep(xs[0]) ==> Mapped(xs, [f(xs[0])] + ys, keep, f, [0] + Shift(idx))
  {
    var shifted := Shift(idx);
    forall k | 0 <= k < |idx|
      ensures shifted[k] < |xs| && xs[shifted[k]] == xs[1..][idx[k]]
    {
    }
  }

  lemma ShiftIncreasing(idx: seq<nat>)
    requires Increasing(idx)
    ensures Increasing(Shift(idx)) && Increasing([0] + Shift(idx))
  {
  }

  lemma ShiftCovers<T>(xs: seq<T>, keep: T -> bool, idx: seq<nat>)
    requires xs != [] && Covers(xs[1..], keep, idx)
    ensures !keep(xs[0]) ==> Covers(xs, keep, Shift(idx))
    ensures Covers(xs, keep, [0] + Shift(idx))
  {
    var shifted := Shift(idx);
    forall i | 0 < i < |xs| && keep(xs[i])
      ensures i in shifted
    {
      assert xs[1..][i - 1] == xs[i];
      var k :| 0 <= k < |idx| && idx[k] == i - 1;
      assert shifted[k] == i;
    }
    forall i | 0 <= i < |xs| && keep(xs[i])
      ensures i in [0] + shifted
    {
      if i > 0 {
        assert i in shifted;
      }
    }
  }

  /** One more element in front: it is kept and mapped first, or dropped. */
  lemma ConsStep<T, U>(xs: seq<T>, ys: seq<U>, keep: T -> bool, f: T -> U)
    requires xs != [] && FilterMapped(xs[1..], ys, keep, f)
    ensures FilterMapped(xs, if keep(xs[0]) then [f(xs[0])] + ys else ys, keep, f)
  {
    var idx: seq<nat> :| Picks(xs[1..], ys, keep, f, idx);
    ShiftMapped(xs, ys, keep, f, idx);
    ShiftIncreasing(idx);
    ShiftCovers(xs, keep, idx);
    if keep(xs[0]) {
      assert Picks(xs, [f(xs[0])] + ys, keep, f, [0] + Shift(idx));
    } else {
      assert Picks(xs, ys, keep, f, Shift(idx));
    }
  }

  /** An increasing sequence of positions below n has at most n entries. */
  lemma {:induction false} IncreasingBelow(idx: seq<nat>, n: nat)
    requires Increasing(idx) && forall k :: 0 <= k < |idx| ==> idx[k] < n
    ensures |idx| <= n
  {
    if idx != [] {
      IncreasingBelow(idx[..|idx| - 1], idx[|idx| - 1]);
    }
  }

  /** When both elements of a pair are kept, both are mapped, in order. */
  lemma BothKept<T, U>(a: T, b: T, ys: seq<U>, keep: T -> bool, f: T -> U)
    requires keep(a) && keep(b) && FilterMapped([a, b], ys, keep, f)
    ensures ys == [f(a), f(b)]
  {
    var idx: seq<nat> :| Picks([a, b], ys, keep, f, idx);
    IncreasingBelow(idx, 2);
    PairCovered([a, b], keep, idx);
    PairMapped(a, b, ys, keep, f, idx);
  }

  lemma PairCovered<T>(xs: seq<T>, keep: T -> bool, idx: seq<nat>)
    requires |xs| == 2 && keep(xs[0]) && keep(xs[1]) && Covers(xs, keep, idx)
    ensures |idx| >= 2
  {
    assert 0 in idx && 1 in idx;
    var k0 :| 0 <= k0 < |idx| && idx[k0] == 0;
    var k1 :| 0 <= k1 < |idx| && idx[k1] == 1;
    assert k0 != k1;
  }

  lemma PairMapped<T, U>(a: T, b: T, ys: seq<U>, keep: T -> bool, f: T -> U, idx: seq<nat>)
    requires Mapped([a, b], ys, keep, f, idx) && Increasing(idx) && |idx| == 2
    ensures ys == [f(a), f(b)]
  {
    assert idx[0] == 0 && idx[1] == 1 by {
      assert idx[0] < idx[1] < 2;
    }
  }

  /** Position (g, i), element i of group g, precedes (g', i'): an earlier
      group, or an earlier element of the same group. */
  predicate Before(a: (nat, nat), b: (nat, nat)) {
    a.0 < b.0 || (a.0 == b.0 && a.1 < b.1)
  }

  /** `ys[k]` is `f` of the group's label and the selected element at
      position `idx[k]` = (group, element). */
  ghost predicate GroupMapped<L, T, U>(groups: seq<(L, seq<T>)>, ys: seq<U>, keep: T -> bool, f: L -> T -> U,
                                       idx: seq<(nat, nat)>) {
    && |idx| == |ys|
    && forall k :: 0 <= k < |idx| ==>
         && idx[k].0 < |groups| && idx[k].1 < |groups[idx[k].0].1|
         && keep(groups[idx[k].0].1[idx[k].1])
         && ys[k] == f(groups[idx[k].0].0)(groups[idx[k].0].1[idx[k].1])
  }

  predicate Ordered(idx: seq<(nat, nat)>) {
    forall k, l :: 0 <= k < l < |idx| ==> Before(idx[k], idx[l])
  }

  /** Every selected position of every group is listed in `idx`. */
  ghost predicate GroupCovers<L, T>(groups: seq<(L, seq<T>)>, keep: T -> bool, idx: seq<(nat, nat)>) {
    forall g, i :: 0 <= g < |groups| && 0 <= i < |groups[g].1| && keep(groups[g].1[i]) ==> (g, i) in idx
  }

  /** `idx` holds, in group order and element order within a group, exactly
      the positions (group, element) that `keep` selects, and `ys[k]` is
      `f` of the group's label and the element at `idx[k]`. */
  ghost predicate PicksGrouped<L, T, U>(groups: seq<(L, seq<T>)>, ys: seq<U>, keep: T -> bool, f: L -> T -> U,
                                        idx: seq<(nat, nat)>) {
    GroupMapped(groups, ys, keep, f, idx) && Ordered(idx) && GroupCovers(groups, keep, idx)
  }

  /** `ys` is `f` of the selected elements of all groups, each once, group
      after group. */
  ghost predicate GroupedFilterMapped<L, T, U>(groups: seq<(L, seq<T>)>, ys: seq<U>, keep: T -> bool, f: L -> T -> U) {
    exists idx: seq<(nat, nat)> :: PicksGrouped(groups, ys, keep, f, idx)
  }

  /** The positions of the first group, then those of the others one group on. */
  function Positions(first: seq<nat>, rest: seq<(nat, nat)>): seq<(nat, nat)> {
    seq(|first|, k requires 0 <= k < |first| => (0, first[k]))
      + seq(|rest|, k requires 0 <= k < |rest| => (rest[k].0 + 1, rest[k].1))
  }

  lemma EmptyGroupedFilterMapped<L, T, U>(keep: T -> bool, f: L -> T -> U)
    ensures GroupedFilterMapped([], [], keep, f)
  {
    assert PicksGrouped([], [], keep, f, []);
  }

  lemma PositionsMapped<L, T, U>(groups: seq<(L, seq<T>)>, head: seq<U>, tail: seq<U>, keep: T -> bool,
                                 f: L -> T -> U, first: seq<nat>, rest: seq<(nat, nat)>)
    requires groups != []
    requires Mapped(groups[0].1, head, keep, f(groups[0].0), first)
    requires GroupMapped(groups[1..], tail, keep, f, rest)
    ensures GroupMapped(groups, head + tail, keep, f, Positions(first, rest))
  {
    var idx := Positions(first, rest);
    var ys := head + tail;
    forall k | 0 <= k < |idx|
      ensures && idx[k].0 < |groups| && idx[k].1 < |groups[idx[k].0].1|
              && keep(groups[idx[k].0].1[idx[k].1])
              && ys[k] == f(groups[idx[k].0].0)(groups[idx[k].0].1[idx[k].1])
    {
      if k >= |first| {
        assert groups[1..][rest[k - |first|].0] == groups[idx[k].0];
      }
    }
  }

  lemma PositionsOrdered(first: seq<nat>, rest: seq<(nat, nat)>)
    requires Increasing(first) && Ordered(rest)
    ensures Ordered(Positions(first, rest))
  {
    var idx := Positions(first, rest);
    forall k, l | 0 <= k < l < |idx|
      ensures Before(idx[k], idx[l])
    {
      if k >= |first| {
        assert Before(rest[k - |first|], rest[l - |first|]);
      }
    }
  }

  lemma PositionsCover<L, T>(groups: seq<(L, seq<T>)>, keep: T -> bool, first: seq<nat>, rest: seq<(nat, nat)>)
    requires groups != []
    requires Covers(groups[0].1, keep, first)
    requires GroupCovers(groups[1..], keep, rest)
    ensures GroupCovers(groups, keep, Positions(first, rest))
  {
    var idx := Positions(first, rest);
    forall g, i | 0 <= g < |groups| && 0 <= i < |groups[g].1| && keep(groups[g].1[i])
      ensures (g, i) in idx
    {
      if g == 0 {
        var k :| 0 <= k < |first| && first[k] == i;
        assert idx[k] == (g, i);
      } else {
        assert groups[1..][g - 1] == groups[g];
        var k :| 0 <= k < |rest| && rest[k] == (g - 1, i);
        assert idx[|first| + k] == (g, i);
      }
    }
  }

  /** The first group's results followed by those of the other groups. */
  lemma ConcatStep<L, T, U>(groups: seq<(L, seq<T>)>, head: seq<U>, tail: seq<U>, keep: T -> bool, f: L -> T -> U)
    requires groups != []
    requires FilterMapped(groups[0].1, head, keep, f(groups[0].0))
    requires GroupedFilterMapped(groups[1..], tail, keep, f)
    ensures GroupedFilterMapped(groups, head + tail, keep, f)
  {
    var first: seq<nat> :| Picks(groups[0].1, head, keep, f(groups[0].0), first);
    var rest: seq<(nat, nat)> :| PicksGrouped(groups[1..], tail, keep, f, rest);
    PositionsMapped(groups, head, tail, keep, f, first, rest);
    PositionsOrdered(first, rest);
    PositionsCover(groups, keep, first, rest);
    assert PicksGrouped(groups, head + tail, keep, f, Positions(first, rest));
  }
}

=== FILE: metadata.dfy ===
/** Week and part of a worksheet, read from its path with
      re.match(r"(?:.*[/])?((\d+)(?:-(\d+))?-Worksheet)", path)
    where `[/]` is the plain `/` of the program's pattern, written as a class so as
    not to end this comment.

    `re.match` anchors the pattern at the start of the path but not at its end.
    The optional greedy prefix `(?:.*[/])?` first tries the last `/` that `.*`
    can reach (`.` stops at a newline), then earlier ones, and finally no
    prefix at all. So the body `(\d+)(?:-(\d+))?-Worksheet` is tried at the
    start positions that follow such a `/`, from the right, and then at 0.
    The first position where it matches decides the result. */
module Metadata {
  import opened Decimal
  import opened Text

  datatype Option<T> = None | Some(value: T)

  datatype Meta = Meta(week: nat, part: nat)

  /** Used when the path does not match. */
  const Default := Meta(1, 1)

  const Literal := "-Worksheet"

  /** End of the maximal run of ASCII digits that starts at i. */
  function DigitRunEnd(s: string, i: nat): (j: nat)
    requires i <= |s|
    ensures i <= j <= |s|
    ensures forall k :: i <= k < j ==> IsDigit(s[k])
    ensures j < |s| ==> !IsDigit(s[j])
    decreases |s| - i
  {
    if i < |s| && IsDigit(s[i]) then DigitRunEnd(s, i + 1) else i
  }

  /** The body matched at p, with both digit groups taken greedily. */
  function BodyAt(s: string, p: nat): Option<Meta>
    requires p <= |s|
  {
    var i := DigitRunEnd(s, p);
    if i == p then None
    else
      var week := Value(s[p..i]);
      var j := if i < |s| then DigitRunEnd(s, i + 1) else i;
      if i < |s| && s[i] == '-' && i + 1 < j && OccursAt(s, Literal, j) then
        Some(Meta(week, Value(s[i + 1..j])))
      else if OccursAt(s, Literal, i) then
        Some(Meta(week, 1))
      else
        None
  }

  /** The language of the body, read off the pattern: week digits in
      `s[p..i]`, the optional `-part` group in `s[i..j]`, then the literal at
      j. Part 1 stands for the absent group. */
  ghost predicate BodyWith(s: string, p: nat, i: nat, j: nat, m: Meta) {
    && p < i <= j <= |s|
    && IsDigits(s[p..i]) && m.week == Value(s[p..i])
    && OccursAt(s, Literal, j)
    && if j == i then m.part == 1
       else i + 1 < j && s[i] == '-' && IsDigits(s[i + 1..j]) && m.part == Value(s[i + 1..j])
  }

  lemma DigitRunEndExact(s: string, p: nat, i: nat)
    requires p <= i < |s| && IsDigits(s[p..i]) && !IsDigit(s[i])
    ensures DigitRunEnd(s, p) == i
  {
    forall k | p <= k < i
      ensures IsDigit(s[k])
    {
      assert s[p..i][k - p] == s[k];
    }
  }

  /** Every greedy match is a word of the body's language. */
  lemma BodyAtSound(s: string, p: nat, m: Meta)
    requires p <= |s| && BodyAt(s, p) == Some(m)
    ensures exists i: nat, j: nat :: BodyWith(s, p, i, j, m)
  {
    var i := DigitRunEnd(s, p);
    var j := if i < |s| then DigitRunEnd(s, i + 1) else i;
    if i < |s| && s[i] == '-' && i + 1 < j && OccursAt(s, Literal, j) {
      assert BodyWith(s, p, i, j, m);
    } else {
      assert BodyWith(s, p, i, i, m);
    }
  }

  /** Every word of the body's language is found by the greedy evaluation,
      with the same groups: the language pins down i and j, so backtracking
      inside the body cannot produce another result. */
  lemma BodyAtComplete(s: string, p: nat, i: nat, j: nat, m: Meta)
    requires BodyWith(s, p, i, j, m)
    ensures BodyAt(s, p) == Some(m)
  {
    assert Literal[0] == '-' && Literal[1] == 'W';
    assert s[j..j + |Literal|][0] == '-';
    DigitRunEndExact(s, p, i);
    if j == i {
      assert s[i..i + |Literal|][1] == 'W';
      DigitRunEndExact(s, i + 1, i + 1);
    } else {
      DigitRunEndExact(s, i + 1, j);
    }
  }

  /** p is where the body may start: the start of the path, or just after a
      `/` that `.*` reaches without crossing a newline. */
  predicate Candidate(s: string, p: nat) {
    p <= |s| && (p == 0 || (s[p - 1] == '/' && '\n' !in s[..p - 1]))
  }

  /** Tries the start positions p, p-1, ..., 0 in the order the regex engine does. */
  function SearchDown(s: string, p: nat): (r: Option<(nat, Meta)>)
    requires p <= |s|
    ensures r.Some? ==> r.value.0 <= p && Candidate(s, r.value.0) && BodyAt(s, r.value.0) == Some(r.value.1)
    ensures r.Some? ==> forall q: nat :: r.value.0 < q <= p && Candidate(s, q) ==> BodyAt(s, q) == None
    ensures r.None? ==> forall q: nat :: q <= p && Candidate(s, q) ==> BodyAt(s, q) == None
    decreases p
  {
    if Candidate(s, p) && BodyAt(s, p).Some? then Some((p, BodyAt(s, p).value))
    else if p == 0 then None
    else SearchDown(s, p - 1)
  }

  /** `re.match` of the pattern against the whole path. */
  function Match(s: string): Option<Meta> {
    match SearchDown(s, |s|)
    case None => None
    case Some((_, m)) => Some(m)
  }

  /** Week and part as the pipeline uses them: the matched groups through
      `int`, part 1 when its group is absent, and (1, 1) without a match. */
  function WeekAndPart(path: string): Meta {
    match Match(path)
    case Some(m) => m
    case None => Default
  }

  /** The match comes from the rightmost start position that works. */
  lemma MatchSpec(s: string, m: Meta)
    ensures Match(s) == Some(m) <==>
      exists p: nat :: Candidate(s, p) && BodyAt(s, p) == Some(m)
        && forall q: nat :: p < q && Candidate(s, q) ==> BodyAt(s, q) == None
  {
    if exists p: nat :: Candidate(s, p) && BodyAt(s, p) == Some(m)
        && forall q: nat :: p < q && Candidate(s, q) ==> BodyAt(s, q) == None {
      var p: nat :| Candidate(s, p) && BodyAt(s, p) == Some(m)
        && forall q: nat :: p < q && Candidate(s, q) ==> BodyAt(s, q) == None;
      var r := SearchDown(s, |s|);
      assert r.Some?;
      assert r.value.0 == p;
    }
  }

  /** A match is a week digit group that starts the path or follows a `/`,
      an optional `-part` group, and the case-sensitive literal. */
  lemma MatchSound(s: string, m: Meta)
    requires Match(s) == Some(m)
    ensures exists p: nat, i: nat, j: nat :: Candidate(s, p) && BodyWith(s, p, i, j, m)
  {
    var p := SearchDown(s, |s|).value.0;
    BodyAtSound(s, p, m);
    var i: nat, j: nat :| BodyWith(s, p, i, j, m);
    assert Candidate(s, p) && BodyWith(s, p, i, j, m);
  }

  lemma MatchHasLiteral(s: string)
    ensures Match(s).Some? ==> Contains(s, Literal)
  {
    if Match(s).Some? {
      MatchSound(s, Match(s).value);
      var p: nat, i: nat, j: nat :| Candidate(s, p) && BodyWith(s, p, i, j, Match(s).value);
      assert OccursAt(s, Literal, j);
    }
  }

  /** A path without the literal `-Worksheet` gets the default metadata. */
  lemma NoLiteralGivesDefault(s: string)
    requires !Contains(s, Literal)
    ensures WeekAndPart(s) == Default
  {
    MatchHasLiteral(s);
  }

  /** When no `/` follows a start position whose body matches, that position decides. */
  lemma LastSlashDecides(s: string, p: nat, m: Meta)
    requires Candidate(s, p) && BodyAt(s, p) == Some(m)
    requires '/' !in s[p..]
    ensures Match(s) == Some(m)
  {
    forall q: nat | p < q <= |s|
      ensures !Candidate(s, q)
    {
      assert s[p..][q - 1 - p] == s[q - 1];
    }
    var r := SearchDown(s, |s|);
    assert r.Some? && r.value.0 == p;
  }

  /** The text of the optional part group, `-digits`, or nothing. */
  function PartGroup(part: Option<string>): string {
    match part
    case None => ""
    case Some(d) => "-" + d
  }

  lemma BodyWithShift(x: string, y: string, i: nat, j: nat, m: Meta)
    requires BodyWith(y, 0, i, j, m)
    ensures BodyWith(x + y, |x|, |x| + i, |x| + j, m)
  {
    var s := x + y;
    assert s[|x|..|x| + i] == y[0..i];
    assert s[|x| + j..|x| + j + |Literal|] == y[j..j + |Literal|];
    if j != i {
      assert s[|x| + i + 1..|x| + j] == y[i + 1..j];
      assert s[|x| + i] == y[i];
    }
  }

  lemma Concat3(a: string, b: string, c: string)
    ensures (a + b + c)[..|a|] == a
    ensures (a + b + c)[|a|..|a| + |b|] == b
    ensures (a + b + c)[|a| + |b|..] == c
  {
  }

  /** The part as the pipeline reads it: `int` of group 3, or 1 when the
      group did not take part in the match. */
  function PartValue(part: Option<string>): nat
    requires part.Some? ==> IsDigits(part.value)
  {
    if part.Some? then Value(part.value) else 1
  }

  /** The file name shape the pattern is written for: `week[-part]-Worksheet` and a tail. */
  function WorksheetName(week: string, part: Option<string>, rest: string): string {
    week + PartGroup(part) + (Literal + rest)
  }

  lemma LiteralAfterGroups(week: string, group: string, rest: string)
    ensures OccursAt(week + group + (Literal + rest), Literal, |week| + |group|)
  {
    var tail := Literal + rest;
    Concat3(week, group, tail);
    assert tail[..|Literal|] == Literal;
    assert (week + group + tail)[|week| + |group|..][..|Literal|] == tail[..|Literal|];
  }

  lemma PartGroupSlices(week: string, d: string, tail: string)
    ensures var b := week + ("-" + d) + tail;
      b[|week|] == '-' && b[|week| + 1..|week| + 1 + |d|] == d
  {
    var b := week + ("-" + d) + tail;
    Concat3(week, "-" + d, tail);
    assert b[|week|..|week| + 1 + |d|] == "-" + d;
  }

  lemma BodyWithIntro(s: string, p: nat, i: nat, j: nat, week: string, part: Option<string>)
    requires p < i <= j <= |s| && s[p..i] == week && IsDigits(week)
    requires OccursAt(s, Literal, j)
    requires part.None? ==> j == i
    requires part.Some? ==> i + 1 < j && s[i] == '-' && s[i + 1..j] == part.value && IsDigits(part.value)
    ensures BodyWith(s, p, i, j, Meta(Value(week), PartValue(part)))
  {
  }

  lemma WeekOnlyShape(week: string, rest: string)
    ensures var name := WorksheetName(week, None, rest);
      && |PartGroup(None)| == 0 && |week| <= |name|
      && name[0..|week|] == week && OccursAt(name, Literal, |week|)
  {
    Concat3(week, "", Literal + rest);
    LiteralAfterGroups(week, "", rest);
  }

  lemma WeekAndPartShape(week: string, d: string, rest: string)
    ensures var name := WorksheetName(week, Some(d), rest);
      && |PartGroup(Some(d))| == 1 + |d| && |week| + 1 + |d| <= |name|
      && name[0..|week|] == week
      && name[|week|] == '-' && name[|week| + 1..|week| + 1 + |d|] == d
      && OccursAt(name, Literal, |week| + 1 + |d|)
  {
    Concat3(week, "-" + d, Literal + rest);
    LiteralAfterGroups(week, "-" + d, rest);
    PartGroupSlices(week, d, Literal + rest);
  }

  lemma NoSlashInBody(week: string, part: Option<string>, rest: string)
    requires IsDigits(week)
    requires part.Some? ==> IsDigits(part.value)
    requires '/' !in rest
    ensures '/' !in WorksheetName(week, part, rest)
  {
    assert !IsDigit('/');
    assert '/' !in week;
    assert '/' !in PartGroup(part);
    assert '/' !in Literal;
  }

  lemma CandidateAfterDir(dir: string, body: string)
    requires dir == [] || (dir[|dir| - 1] == '/' && '\n' !in dir)
    ensures Candidate(dir + body, |dir|)
  {
    if dir != [] {
      var p := |dir|;
      assert (dir + body)[..p - 1] == dir[..p - 1];
      assert dir == dir[..p - 1] + [dir[p - 1]];
    }
  }

  /** A body that matches at the start of a file name, with no `/` in it, is
      what the whole path yields, whatever newline-free directory precedes it. */
  lemma PathParsesFromBody(dir: string, body: string, i: nat, j: nat, m: Meta)
    requires dir == [] || (dir[|dir| - 1] == '/' && '\n' !in dir)
    requires BodyWith(body, 0, i, j, m)
    requires '/' !in body
    ensures WeekAndPart(dir + body) == m
  {
    ShiftedBodyMatches(dir, body, i, j, m);
    NoSlashAfterDir(dir, body);
    LastSlashDecides(dir + body, |dir|, m);
  }

  /** The body keeps its match when a directory is put in front of it. */
  lemma ShiftedBodyMatches(dir: string, body: string, i: nat, j: nat, m: Meta)
    requires dir == [] || (dir[|dir| - 1] == '/' && '\n' !in dir)
    requires BodyWith(body, 0, i, j, m)
    ensures Candidate(dir + body, |dir|) && BodyAt(dir + body, |dir|) == Some(m)
  {
    BodyWithShift(dir, body, i, j, m);
    BodyAtComplete(dir + body, |dir|, |dir| + i, |dir| + j, m);
    CandidateAfterDir(dir, body);
  }

  lemma NoSlashAfterDir(dir: string, body: string)
    requires '/' !in body
    ensures '/' !in (dir + body)[|dir|..]
  {
    assert (dir + body)[|dir|..] == body;
  }

  /** The body read off its pieces: digits `week`, the optional `-part`
      group ending at j, the literal at j, and no `/` anywhere. */
  lemma PathParsesFromParts(dir: string, body: string, week: string, part: Option<string>, j: nat)
    requires dir == [] || (dir[|dir| - 1] == '/' && '\n' !in dir)
    requires week != [] && IsDigits(week) && |week| <= j <= |body|
    requires body[0..|week|] == week && OccursAt(body, Literal, j)
    requires part.None? ==> j == |week|
    requires part.Some? ==> |week| + 1 < j && body[|week|] == '-' && body[|week| + 1..j] == part.value
                            && IsDigits(part.value)
    requires '/' !in body
    ensures WeekAndPart(dir + body) == Meta(Value(week), PartValue(part))
  {
    BodyWithIntro(body, 0, |week|, j, week, part);
    PathParsesFromBody(dir, body, |week|, j, Meta(Value(week), PartValue(part)));
  }

  /** Paths built as `dir week[-part]-Worksheet rest` parse back into their
      digit groups, when dir is empty or a newline-free directory ending in
      `/`, and rest holds no `/`. */
  lemma WorksheetPathParses(dir: string, week: string, part: Option<string>, rest: string)
    requires dir == [] || (dir[|dir| - 1] == '/' && '\n' !in dir)
    requires week != [] && IsDigits(week)
    requires part.Some? ==> part.value != [] && IsDigits(part.value)
    requires '/' !in rest
    ensures WeekAndPart(dir + WorksheetName(week, part, rest))
         == Meta(Value(week), PartValue(part))
  {
    NoSlashInBody(week, part, rest);
    match part
    case None =>
      WeekOnlyShape(week, rest);
      PathParsesFromParts(dir, WorksheetName(week, None, rest), week, None, |week|);
    case Some(d) =>
      WeekAndPartShape(week, d, rest);
      PathParsesFromParts(dir, WorksheetName(week, Some(d), rest), week, Some(d), |week| + 1 + |d|);
  }

  /** Rendering a week and part the way the handout header does and reading
      them back is the identity. */
  lemma RenderedPathParses(dir: string, week: nat, part: nat)
    requires dir == [] || (dir[|dir| - 1] == '/' && '\n' !in dir)
    ensures WeekAndPart(dir + WorksheetName(Show(week), Some(Show(part)), ".pdf")) == Meta(week, part)
  {
    WorksheetPathParses(dir, Show(week), Some(Show(part)), ".pdf");
    ValueOfShow(week);
    ValueOfShow(part);
  }

  /** Leading zeros are dropped and 0 is a possible week or part. */
  lemma LeadingZerosDropped(dir: string, week: string)
    requires dir == [] || (dir[|dir| - 1] == '/' && '\n' !in dir)
    requires IsDigits(week)
    ensures WeekAndPart(dir + WorksheetName("0" + week, Some("0"), ".pdf")) == Meta(Value(week), 0)
  {
    LeadingZeroDropped(week);
    WorksheetPathParses(dir, "0" + week, Some("0"), ".pdf");
  }

  /** Without any `/` only the start of the path is tried. */
  lemma NoSlashMatchesAtStart(s: string)
    requires '/' !in s
    ensures Match(s) == BodyAt(s, 0)
  {
    forall q: nat | 0 < q <= |s|
      ensures !Candidate(s, q)
    {
      assert s[q - 1] in s;
    }
  }

  lemma SingleDigitValue(c: char)
    requires IsDigit(c)
    ensures IsDigits([c]) && Value([c]) == DigitValue(c)
  {
  }

  lemma DocumentedNameShapes()
    ensures "" + WorksheetName("3", None, ".pdf") == "3-Worksheet.pdf"
    ensures "" + WorksheetName("3", Some("2"), ".pdf") == "3-2-Worksheet.pdf"
    ensures "1-Worksheet/" + WorksheetName("2", None, ".pdf") == "1-Worksheet/2-Worksheet.pdf"
  {
  }

  /** The documented file names. */
  lemma DocumentedNames()
    ensures WeekAndPart("3-Worksheet.pdf") == Meta(3, 1)
    ensures WeekAndPart("3-2-Worksheet.pdf") == Meta(3, 2)
    ensures WeekAndPart("notes.pdf") == Default
  {
    SingleDigitValue('3');
    SingleDigitValue('2');
    WorksheetPathParses("", "3", None, ".pdf");
    WorksheetPathParses("", "3", Some("2"), ".pdf");
    DocumentedNameShapes();
    NoLiteralGivesDefault("notes.pdf");
  }

  /** Three digit groups are one too many: no start position matches. */
  lemma ThreeGroupsGiveDefault()
    ensures WeekAndPart("1-2-3-Worksheet.pdf") == Default
  {
    NoSlashMatchesAtStart("1-2-3-Worksheet.pdf");
    ThreeGroupsBody();
  }

  lemma ThreeGroupsBody()
    ensures BodyAt("1-2-3-Worksheet.pdf", 0) == None
  {
    var s := "1-2-3-Worksheet.pdf";
    DigitRunEndExact(s, 0, 1);
    DigitRunEndExact(s, 2, 3);
    assert s[3..3 + |Literal|][1] != Literal[1];
    assert s[1..1 + |Literal|][1] != Literal[1];
  }

  /** The greedy prefix prefers the last `/`: the file name wins over the
      directory name. */
  lemma LastSlashPreferred()
    ensures WeekAndPart("1-Worksheet/2-Worksheet.pdf") == Meta(2, 1)
  {
    SingleDigitValue('2');
    WorksheetPathParses("1-Worksheet/", "2", None, ".pdf");
    DocumentedNameShapes();
  }
}

=== FILE: pipeline.dfy ===
/** One conversion: compose every page pair, read the week and part from the
    input path, and decorate every composed page with its 1-based position
    out of the number of composed pages. Opening, saving and the font file
    are outside the model; a document is given by its page count. */
module Pipeline {
  import opened Compositor
  import opened Decoration
  import Metadata
  import Batch

  datatype HandoutPage = HandoutPage(sheet: Sheet, frame: Frame, caption: Caption)

  /** `pages` is the handout of a document of `pageCount` pages read from
      `inputPath`: one page per pair (2k, 2k+1), merged into the two slots,
      with the frame and the runs for position k of the handout. */
  predicate IsHandoutOf(inputPath: string, pageCount: nat, year: nat, textLength: string -> real,
                        pages: seq<HandoutPage>) {
    && |pages| == pageCount / 2
    && forall k :: 0 <= k < |pages| ==>
         && 2 * k + 1 < pageCount
         && pages[k].sheet == MergePages(pageCount, PagePair(2 * k, 2 * k + 1))
         && pages[k].frame == AddFrame()
         && pages[k].caption == AddText(k, |pages|, Metadata.WeekAndPart(inputPath), year, textLength)
  }

  /** The counter of handout page k reads `[Page k+1/T]` for a handout of T
      pages, and no two pages carry the same counter. */
  lemma HandoutCounters(inputPath: string, pageCount: nat, year: nat, textLength: string -> real,
                        pages: seq<HandoutPage>)
    requires IsHandoutOf(inputPath, pageCount, year, textLength, pages)
    ensures forall k :: 0 <= k < |pages| ==> pages[k].caption.topRight.text == CounterText(k + 1, |pages|)
    ensures forall j, k :: 0 <= j < k < |pages| ==>
      pages[j].caption.topRight.text != pages[k].caption.topRight.text
  {
    forall j, k | 0 <= j < k < |pages|
      ensures pages[j].caption.topRight.text != pages[k].caption.topRight.text
    {
      if pages[j].caption.topRight.text == pages[k].caption.topRight.text {
        CounterTextInjective(j + 1, k + 1, |pages|);
      }
    }
  }

  method ProcessDocument(inputPath: string, pageCount: nat, year: nat, textLength: string -> real)
    returns (pages: seq<HandoutPage>)
    ensures IsHandoutOf(inputPath, pageCount, year, textLength, pages)
    ensures forall k :: 0 <= k < |pages| ==> pages[k].caption.topRight.text == CounterText(k + 1, |pages|)
    ensures forall j, k :: 0 <= j < k < |pages| ==>
      pages[j].caption.topRight.text != pages[k].caption.topRight.text
  {
    var sheets := CreateOutputDoc(pageCount);
    var meta := Metadata.WeekAndPart(inputPath);
    // The total is fixed only once every pair is composed.
    var total := |sheets|;
    pages := [];
    var k := 0;
    while k < total
      invariant k <= total && |pages| == k
      invariant forall j :: 0 <= j < k ==>
        pages[j] == HandoutPage(sheets[j], AddFrame(), AddText(j, total, meta, year, textLength))
    {
      pages := pages + [HandoutPage(sheets[k], AddFrame(), AddText(k, total, meta, year, textLength))];
      k := k + 1;
    }
    HandoutCounters(inputPath, pageCount, year, textLength, pages);
  }

  /** A batch entry holds a job and the handout of the job's input. */
  predicate Converted(entry: (Batch.Job, seq<HandoutPage>), pageCountOf: string -> nat, year: nat,
                      textLength: string -> real) {
    IsHandoutOf(entry.0.input, pageCountOf(entry.0.input), year, textLength, entry.1)
  }

  lemma AppendConverted(handouts: seq<(Batch.Job, seq<HandoutPage>)>, jobs: seq<Batch.Job>,
                        entry: (Batch.Job, seq<HandoutPage>), pageCountOf: string -> nat, year: nat,
                        textLength: string -> real)
    requires |handouts| < |jobs| && entry.0 == jobs[|handouts|]
    requires Converted(entry, pageCountOf, year, textLength)
    requires forall j :: 0 <= j < |handouts| ==>
      handouts[j].0 == jobs[j] && Converted(handouts[j], pageCountOf, year, textLength)
    ensures forall j :: 0 <= j < |handouts| + 1 ==>
      (handouts + [entry])[j].0 == jobs[j] && Converted((handouts + [entry])[j], pageCountOf, year, textLength)
  {
  }

  /** Every selected file of the walk is converted, in walk order; the
      documents' page counts are given by `pageCountOf`. */
  method ProcessAllWorksheets(walk: seq<(string, seq<string>)>, pageCountOf: string -> nat, year: nat,
                              textLength: string -> real)
    returns (handouts: seq<(Batch.Job, seq<HandoutPage>)>)
    ensures |handouts| == |Batch.WalkJobs(walk)|
    ensures forall i :: 0 <= i < |handouts| ==>
      handouts[i].0 == Batch.WalkJobs(walk)[i] && Converted(handouts[i], pageCountOf, year, textLength)
  {
    var jobs := Batch.WalkJobs(walk);
    handouts := [];
    var i := 0;
    while i < |jobs|
      invariant i <= |jobs| && |handouts| == i
      invariant forall j :: 0 <= j < i ==>
        handouts[j].0 == jobs[j] && Converted(handouts[j], pageCountOf, year, textLength)
    {
      var pages := ProcessDocument(jobs[i].input, pageCountOf(jobs[i].input), year, textLength);
      AppendConverted(handouts, jobs, (jobs[i], pages), pageCountOf, year, textLength);
      handouts := handouts + [(jobs[i], pages)];
      i := i + 1;
    }
  }
}

=== FILE: text.dfy ===
/** String primitives the batch driver relies on: substring tests, ASCII
    lower-casing (`str.lower`) and replacement of every occurrence
    (`str.replace`). */
module Text {

  predicate OccursAt(s: string, pat: string, i: nat) {
    i + |pat| <= |s| && s[i..i + |pat|] == pat
  }

  predicate StartsWith(s: string, pat: string) {
    OccursAt(s, pat, 0)
  }

  predicate EndsWith(s: string, pat: string) {
    |pat| <= |s| && OccursAt(s, pat, |s| - |pat|)
  }

  /** Python's `pat in s`. */
  predicate Contains(s: string, pat: string) {
    exists i: nat :: i <= |s| && OccursAt(s, pat, i)
  }

  function LowerChar(c: char): char {
    if 'A' <= c <= 'Z' then (c as int + 32) as char else c
  }

  /** `str.lower` on ASCII text. */
  function Lower(s: string): string {
    seq(|s|, i requires 0 <= i < |s| => LowerChar(s[i]))
  }

  /** An occurrence survives lower-casing both sides. */
  lemma LowerOccurs(s: string, pat: string, i: nat)
    requires OccursAt(s, pat, i)
    ensures OccursAt(Lower(s), Lower(pat), i)
  {
    assert forall k :: 0 <= k < |pat| ==> Lower(s)[i..i + |pat|][k] == Lower(pat)[k];
  }

  /** `s.replace(pat, rep)`: occurrences are found left to right and do not overlap. */
  function ReplaceAll(s: string, pat: string, rep: string): string
    requires pat != []
    decreases |s|
  {
    if s == [] then []
    else if StartsWith(s, pat) then rep + ReplaceAll(s[|pat|..], pat, rep)
    else [s[0]] + ReplaceAll(s[1..], pat, rep)
  }

  /** A character that cannot start the pattern is copied. */
  lemma CopyStep(c: char, t: string, pat: string, rep: string)
    requires pat != [] && c != pat[0]
    ensures ReplaceAll([c] + t, pat, rep) == [c] + ReplaceAll(t, pat, rep)
  {
    assert ([c] + t)[1..] == t;
  }

  /** A leading occurrence is replaced and scanning resumes after it. */
  lemma ReplaceStep(pat: string, t: string, rep: string)
    requires pat != []
    ensures ReplaceAll(pat + t, pat, rep) == rep + ReplaceAll(t, pat, rep)
  {
    assert (pat + t)[..|pat|] == pat;
    assert (pat + t)[|pat|..] == t;
  }

  /** A string that does not contain the pattern is returned unchanged. */
  lemma {:induction false} ReplaceAbsent(s: string, pat: string, rep: string)
    requires pat != []
    requires !Contains(s, pat)
    ensures ReplaceAll(s, pat, rep) == s
  {
    if s != [] {
      assert !OccursAt(s, pat, 0);
      forall i: nat | OccursAt(s[1..], pat, i)
        ensures OccursAt(s, pat, i + 1)
      {
        assert s[1..][i..i + |pat|] == s[i + 1..i + 1 + |pat|];
      }
      ReplaceAbsent(s[1..], pat, rep);
    }
  }

  /** An occurrence in a suffix is an occurrence in the whole string. */
  lemma OccursInSuffix(s: string, a: string, k: nat, i: nat)
    requires k <= |s|
    ensures OccursAt(s[k..], a, i) <==> OccursAt(s, a, k + i)
  {
    if i + |a| <= |s| - k {
      assert s[k..][i..i + |a|] == s[k + i..k + i + |a|];
    }
  }

  /** Past the end of a prefix, occurrences are those of the rest. */
  lemma OccursAfterPrefix(x: string, y: string, a: string, i: nat)
    requires |x| <= i
    ensures OccursAt(x + y, a, i) <==> OccursAt(y, a, i - |x|)
  {
    if i + |a| <= |x + y| {
      assert (x + y)[i..i + |a|] == y[i - |x|..i - |x| + |a|];
    }
  }

  lemma ContainsInSuffix(s: string, a: string, k: nat)
    requires k <= |s|
    ensures Contains(s[k..], a) ==> Contains(s, a)
  {
    if Contains(s[k..], a) {
      var i: nat :| i <= |s[k..]| && OccursAt(s[k..], a, i);
      OccursInSuffix(s, a, k, i);
    }
  }

  /** With a shorter replacement the string never grows, and strictly shrinks
      as soon as the pattern occurs. */
  lemma {:induction false} ReplaceShortens(s: string, pat: string, rep: string)
    requires pat != [] && |rep| < |pat|
    ensures |ReplaceAll(s, pat, rep)| <= |s|
    ensures Contains(s, pat) ==> |ReplaceAll(s, pat, rep)| < |s|
  {
    if s != [] {
      if StartsWith(s, pat) {
        ReplaceShortens(s[|pat|..], pat, rep);
      } else {
        ReplaceShortens(s[1..], pat, rep);
        if Contains(s, pat) {
          var i: nat :| i <= |s| && OccursAt(s, pat, i);
          assert i != 0;
          OccursInSuffix(s, pat, 1, i - 1);
        }
      }
    }
  }

  predicate Avoids(s: string, c: char) {
    forall k :: 0 <= k < |s| ==> s[k] != c
  }

  /** Up to the first character of the replacement, the output copies the input. */
  lemma {:induction false} PrefixBeforeReplacement(s: string, pat: string, rep: string, q: string)
    requires pat != [] && rep != []
    requires Avoids(q, rep[0])
    ensures StartsWith(ReplaceAll(s, pat, rep), q) ==> StartsWith(s, q)
  {
    if q != [] && s != [] {
      if StartsWith(s, pat) {
        assert ReplaceAll(s, pat, rep)[0] == rep[0];
      } else {
        var r := ReplaceAll(s[1..], pat, rep);
        assert ReplaceAll(s, pat, rep) == [s[0]] + r;
        PrefixBeforeReplacement(s[1..], pat, rep, q[1..]);
        StartsWithCons(s[0], r, q);
        StartsWithCons(s[0], s[1..], q);
        assert s == [s[0]] + s[1..];
      }
    }
  }

  /** `a` cannot be glued together from pieces of `rep` and its neighbours:
      `rep` never holds the first character of `a`, and the rest of `a` never
      holds the first character of `rep`. */
  predicate Unentangled(a: string, rep: string) {
    a != [] && rep != [] && Avoids(rep, a[0]) && Avoids(a[1..], rep[0])
  }

  /** After `s.replace(pat, rep)` the string holds no `pat`, and holds no other
      unentangled `a` that was absent before. */
  lemma {:induction false} ReplaceLeavesNoOccurrence(s: string, pat: string, rep: string, a: string)
    requires pat != [] && Unentangled(a, rep)
    requires a == pat || !Contains(s, a)
    ensures !Contains(ReplaceAll(s, pat, rep), a)
  {
    if s == [] {
    } else if StartsWith(s, pat) {
      ContainsInSuffix(s, a, |pat|);
      ReplaceLeavesNoOccurrence(s[|pat|..], pat, rep, a);
      NoOccurrenceAfterReplacement(rep, ReplaceAll(s[|pat|..], pat, rep), a);
    } else {
      ContainsInSuffix(s, a, 1);
      ReplaceLeavesNoOccurrence(s[1..], pat, rep, a);
      PrefixBeforeReplacement(s[1..], pat, rep, a[1..]);
      assert s == [s[0]] + s[1..];
      assert !StartsWith(s, a);
      NoOccurrenceAfterCopy(s[0], s[1..], ReplaceAll(s[1..], pat, rep), a);
    }
  }

  /** Step of the replacement that emits `rep`: no occurrence starts inside it. */
  lemma NoOccurrenceAfterReplacement(rep: string, rest: string, a: string)
    requires Unentangled(a, rep)
    requires !Contains(rest, a)
    ensures !Contains(rep + rest, a)
  {
    forall i: nat
      ensures !OccursAt(rep + rest, a, i)
    {
      if i < |rep| {
        assert i + |a| <= |rep + rest| ==> (rep + rest)[i..i + |a|][0] == rep[i];
      } else {
        OccursAfterPrefix(rep, rest, a, i);
      }
    }
  }

  lemma StartsWithCons(c: char, t: string, a: string)
    requires a != []
    ensures StartsWith([c] + t, a) <==> c == a[0] && StartsWith(t, a[1..])
  {
    if |a| <= |t| + 1 {
      assert ([c] + t)[..|a|] == [c] + t[..|a| - 1];
      if c == a[0] && StartsWith(t, a[1..]) {
        assert a == [a[0]] + a[1..];
      }
    }
  }

  /** Step of the replacement that copies one character `c` which does not start an `a`. */
  lemma NoOccurrenceAfterCopy(c: char, tail: string, rest: string, a: string)
    requires a != []
    requires !StartsWith([c] + tail, a)
    requires !Contains(rest, a)
    requires StartsWith(rest, a[1..]) ==> StartsWith(tail, a[1..])
    ensures !Contains([c] + rest, a)
  {
    StartsWithCons(c, tail, a);
    StartsWithCons(c, rest, a);
    forall i: nat
      ensures !OccursAt([c] + rest, a, i)
    {
      if i != 0 {
        OccursAfterPrefix([c], rest, a, i);
      }
    }
  }
}
